=== FILE: README.md ===
# Composition function: parameters to manifests

A Dafny model of `Function.RunFunction` from the Crossplane TypeScript function
template. It covers the part of `RunFunction` that makes decisions. It reads the
observed composite's name and `spec.parameters` and derives up to four
Kubernetes manifests under fixed keys: `serviceaccount`, `service`,
`deployment` and `ingress`. It then merges them over the composed resources
the request already desires.

The model is pure and functional:

- `wrappers.dfy`: `Option` and `Result`.
- `js.dfy`: JSON values and the JavaScript semantics the source relies on. This
  covers truthiness, `||` on strings and numbers (so `0` and `""` take the
  default), `??` (only null or absent takes the default), and the
  `...(v && {field: v})` idiom that adds a field only when `v` is truthy.
- `config.dfy`: the parameter blocks, one datatype per block, with an `Option`
  for every property the code reads. A block's `otherKeys` holds the keys no
  typed property reports, because `Object.keys(block).length > 0` counts them
  too.
- `manifests.dfy`: the ServiceAccount, Service, Deployment and Ingress
  manifests as records. `Composed` is an opaque resource that was desired
  before the function ran.
- `rules.dfy`: the four construction rules, the common labels, the canonical
  port, the image reference and TLS filtering.
- `function.dfy`: the name check, the derivation in its fixed order, the
  merge, and the laws that relate the rules to one another.

Some of the code's behaviour is easy to misread; the model follows the code:

- When every TLS entry is dropped, the Ingress carries `tls: []`. The field is
  not omitted.
- The Deployment's `selector.matchLabels` holds only the name and instance
  labels. `podLabels` go into the pod template labels only.
- The pod spec names the ServiceAccount when `create === true` (a strict
  boolean test) or a name is given. Truthiness of `create` decides only
  whether the ServiceAccount itself is emitted.
- An empty name is fatal, as well as a missing one (`!name`).
- Only the ServiceAccount's metadata gets a `name`. The Service, Deployment
  and Ingress carry labels (and annotations) but no `metadata.name`.

## Model

| member | source | states |
|---|---|---|
| Js.OrString | src/function.ts:184-185 | `v \|\| d` on a string yields the value when it is non-empty and the default when it is absent or "", so it is never "" when the default is non-empty |
| Js.OrNumber | src/function.ts:144 | `v \|\| d` on a number yields the value when it is non-zero and otherwise the default, so a port of 0 becomes 80 |
| Js.Nullish | src/function.ts:100 | `v ?? d` yields the value itself whenever it is present and not null, falsy values such as `false` included (which `\|\|` would replace), and the default otherwise |
| Rules.SelectorWithinCommonLabels | src/function.ts:82-88 | the selector labels are the common labels minus `managed-by` |
| Rules.CanonicalPort | src/function.ts:118 | the shared port is the configured port when that is non-zero and 80 otherwise, so it is never 0 |
| Rules.ServiceAccountRule | src/function.ts:90-106 | a ServiceAccount is emitted iff `create` is truthy, named `name \|\| compositeName`, with the common labels, the configured annotations, and automount defaulting to true only when absent or null |
| Rules.ServiceRule | src/function.ts:108-134 | a Service is emitted iff the service block has a key, with no metadata name, selecting by name and instance, with one TCP port `http` on the given port, and type `ClusterIP` unless a non-empty type is configured |
| Rules.ImageRefRoundTrip | src/function.ts:184 | splitting the image reference at its last ':' gives back the defaulted repository and tag whenever the tag has no ':' |
| Rules.DeploymentRule | src/function.ts:136-217 | the Deployment always exists, with non-zero replicas (the configured count or 1) and selector labels as matchLabels; template labels are the selector labels overridden by podLabels; the pod names the ServiceAccount iff `create === true` or a name is set; exactly one container named after the composite, on the given port; each optional pod and container field is present iff its setting is truthy, and then verbatim |
| Rules.TemplateMatchesSelector | src/function.ts:145-157 | the pod template labels contain the Deployment selector iff podLabels does not redefine the name or instance label |
| Rules.ServicePortNumbers | src/function.ts:116-122 | an emitted Service refers to exactly one port number, the canonical port |
| Rules.DeploymentPortNumbers | src/function.ts:186-192 | the Deployment refers to exactly one port number, the canonical port, whether or not a Service exists |
| Rules.IngressPortNumbers | src/function.ts:239-246 | every backend port number of an emitted Ingress is the canonical port |
| Rules.TlsEntry | src/function.ts:254-266 | a TLS entry maps to null iff its hosts are absent or empty, and otherwise to its secretName and hosts verbatim |
| Rules.Present | src/function.ts:268 | the non-null filter keeps exactly the present values and never lengthens the list |
| Rules.PresentAppend | src/function.ts:268 | the non-null filter distributes over concatenation |
| Rules.KeptTls | src/function.ts:251-268 | every kept TLS entry has hosts; every entry with hosts is kept verbatim; every kept entry comes from an input entry |
| Rules.KeptTlsAppend | src/function.ts:253-268 | TLS filtering distributes over concatenation, so kept entries stay in declared order |
| Rules.KeptTlsSingle | src/function.ts:256-266 | a single TLS entry survives iff it has hosts |
| Rules.KeptTlsAllValid | src/function.ts:263-266 | when every entry has hosts, the kept list is the input entry for entry |
| Rules.KeptTlsAllDropped | src/function.ts:256-262 | when no entry has hosts, the kept list is empty |
| Rules.HttpPaths | src/function.ts:236-247 | the paths are routed as `RoutesPaths` defines: one path per configured path, each keeping its configured `path` in order; every backend names the composite on the given port; each `pathType` is the configured one when non-empty and `ImplementationSpecific` otherwise |
| Rules.HttpRules | src/function.ts:232-250 | hosts map to one rule per host, in order, routing each host's paths; the map throws exactly when some host has no paths |
| Rules.IngressRouteRule | src/function.ts:219-276 | an Ingress is emitted iff the ingress block has a key; the className appears iff it is non-empty; rules appear iff hosts are configured; `tls` appears iff the configured list is non-empty and then holds the kept entries; construction fails exactly when a host lacks paths |
| Function.Put | src/function.ts:103-105 | writing an optional manifest adds its key only when there is a manifest and leaves every other key alone |
| Function.Derive | src/function.ts:74-276 | derivation fails only when building the Ingress throws, and otherwise writes exactly the keys the parameters call for: always `deployment`, `serviceaccount` iff create is truthy, `service` and `ingress` iff their blocks have keys |
| Function.DerivedManifestsTagged | src/function.ts:82-88 | every derived manifest has the kind its key names and carries the same three common labels |
| Function.Merge | src/function.ts:279 | merged keys are the union; a derived entry wins at its key and every other existing entry is kept |
| Function.RunFunction | src/function.ts:66-297 | a missing or empty name is fatal with `NameRequired`; a set name with an ingress host lacking `paths` is fatal with `Unexpected`; the status is normal iff the name is set and no exception occurs, and its message is `processing complete`; on a fatal status the desired resources are unchanged; otherwise they are the existing ones updated at exactly the derived keys |
| Function.NameOnlyYieldsDeployment | src/function.test.ts:40-83 | a composite with only a name yields only a `deployment`, of kind Deployment and apiVersion apps/v1, with 1 replica, image `nginx:latest`, pull policy IfNotPresent and one `http` port 80 |
| Function.FalsySettingsTakeDefaults | src/function.ts:115-189 | zero and empty-string settings take the same defaults as absent ones: 1 replica, `nginx:latest`, IfNotPresent, port 80, ClusterIP |
| Function.CanonicalPortShared | src/function.ts:116-245 | every port number in every derived manifest is the canonical port; the Deployment always carries it and the Service does whenever it is emitted |
| Function.Port9090Propagates | src/function.ts:118-243 | a configured port 9090 appears in the Service, the container and every ingress backend |
| Function.ServiceAccountLinked | src/function.ts:163-165 | the pod names a ServiceAccount iff `create === true` or a name is set, and it is the same name as the emitted ServiceAccount |
| Function.TruthyCreateNotReferenced | src/function.ts:91-165 | a truthy `create` that is not the boolean `true`, with no name, emits a ServiceAccount that the pod does not reference |
| Function.NameWithoutCreateReferencesMissingAccount | src/function.ts:91-165 | a name without a truthy `create` makes the pod reference a ServiceAccount that is not emitted |
| Function.AllTlsDroppedLeavesEmptyList | src/function.ts:251-268 | when every configured TLS entry lacks hosts, the Ingress carries an empty `tls` list |
| Function.RerunIsFixpoint | src/function.ts:279 | feeding a response's resources back in as the existing ones reproduces the same response |
| Function.LaterRunWins | src/function.ts:279 | a second invocation over the first's output holds the second's manifests at every key it derives, including its replica count, and the first's elsewhere |

## Left out

- The SDK envelope is replaced by parameters and a `Response` value: `to`, the observed and desired composite getters, `getDesiredComposedResources`, `setDesiredComposedResources`, `fatal`, `normal` and `Resource.fromJSON`. The merge those helpers perform is modelled by `Merge`.
- The `kubernetes-models` constructors and `.toJSON()` serialisation are foreign code. Manifests are plain records holding only the fields the function sets.
- Logging is left out because it is I/O with no functional content. This includes the warning for a dropped TLS entry, the `Date.now()` timing and the `async` wrapper.
- The catch-all `catch` is modelled only for the one exception well-typed data can cause: an ingress host entry without `paths`. It is an opaque `Unexpected` failure, because its message text comes from the JavaScript runtime. Failures inside foreign code are not modelled.
- Null entries inside the parameter lists are not modelled, because list elements are non-null records. In the source each one throws a TypeError that the catch turns into a fatal result: a null entry in `ingress.hosts` at `hostConfig.host` (src/function.ts:234), a null entry in a host's `paths` at `pathConfig.path` (src/function.ts:237), and a null entry in `ingress.tls` at `tlsEntry.hosts` (src/function.ts:256).
- RunFunction: on the `Unexpected` path the model promises that the resources already desired are returned unchanged. The source writes the ServiceAccount, Service and Deployment into `desiredComposed` (src/function.ts:103, 131, 215) before the ingress map can throw. The fatal response is `to(req)` (src/function.ts:54), so the promise holds only if the SDK's `getDesiredComposedResources` returns a map that response does not share. The SDK is not part of this model; the assumed behaviour is that no partial resource set is returned.
- Opaque pass-through settings are copied as JSON values: security contexts, affinity, tolerations, volumes, volume mounts, resources and probes. Their inner structure is not interpreted.
- Parameter values of an unexpected JSON type are not modelled. Examples: a numeric `tag`, a string `port`, or a non-object block or `podLabels`, which JavaScript would stringify or spread by index. Each property has the type the code expects; only `create`, `automount` and the pass-through settings keep the full JSON type.
- Numbers are integers. NaN, fractions and float formatting are not modelled.
- A recognised key holding `null` is modelled only where it matters. A typed property reads it as absent, and the block's `otherKeys` records it for the key-count test.
- Insertion order of keys in the result map is not modelled. Dafny maps are unordered, and so is the protobuf map of the response.
- The Service, Deployment and Ingress carry no `metadata.name`, exactly as the source builds them. The model does not say what names Crossplane generates for them, so it cannot say whether the ingress backend's service name resolves.
- `dist/examples/basic-app/function.d.ts` is a type declaration with no logic.

=== FILE: config.dfy ===
/**
  The composite resource the function observes and the `spec.parameters`
  blocks it reads. Each property the derivation reads is an `Option`: `None`
  stands for an absent (or null) property, and a missing block is the block
  with every property absent, as `params.service || {}` makes it.
 */
module Config {
  import opened Wrappers
  import opened Js

  /** `deployment.image`. */
  datatype ImageConfig = ImageConfig(
    repository: Option<string>,
    tag: Option<string>,
    pullPolicy: Option<string>)

  /** `deployment`: replica count, image, pod-level and container-level options.
      The pass-through options are opaque JSON documents copied into the pod. */
  datatype DeploymentConfig = DeploymentConfig(
    replicaCount: Option<int>,
    image: ImageConfig,
    podAnnotations: Option<StringMap>,
    podLabels: Option<StringMap>,
    podSecurityContext: Option<Json>,
    securityContext: Option<Json>,
    nodeSelector: Option<Json>,
    tolerations: Option<Json>,
    affinity: Option<Json>,
    volumes: Option<Json>,
    volumeMounts: Option<Json>,
    resources: Option<Json>,
    livenessProbe: Option<Json>,
    readinessProbe: Option<Json>)

  /** `service`. `otherKeys` holds the keys of the block that no typed
      property reports: unrecognised keys, and recognised ones holding null. */
  datatype ServiceConfig = ServiceConfig(
    serviceType: Option<string>,
    port: Option<int>,
    otherKeys: set<string>)
  {
    /** `Object.keys(serviceConfig).length > 0`. */
    predicate HasKeys() {
      serviceType.Some? || port.Some? || otherKeys != {}
    }
  }

  /** One entry of `ingress.hosts[i].paths`. */
  datatype IngressPathConfig = IngressPathConfig(path: Option<string>, pathType: Option<string>)

  /** One entry of `ingress.hosts`. */
  datatype IngressHostConfig = IngressHostConfig(
    host: Option<string>,
    paths: Option<seq<IngressPathConfig>>)

  /** One entry of `ingress.tls`. */
  datatype IngressTlsConfig = IngressTlsConfig(
    secretName: Option<string>,
    hosts: Option<seq<string>>)

  /** `ingress`; `otherKeys` as for `ServiceConfig`. */
  datatype IngressConfig = IngressConfig(
    className: Option<string>,
    annotations: Option<StringMap>,
    hosts: Option<seq<IngressHostConfig>>,
    tls: Option<seq<IngressTlsConfig>>,
    otherKeys: set<string>)
  {
    /** `Object.keys(ingressConfig).length > 0`. */
    predicate HasKeys() {
      className.Some? || annotations.Some? || hosts.Some? || tls.Some? || otherKeys != {}
    }
  }

  /** `serviceAccount`. `create` and `automount` are read with JavaScript
      truthiness and `??`, so they keep their dynamic JSON type. */
  datatype ServiceAccountConfig = ServiceAccountConfig(
    create: Option<Json>,
    name: Option<string>,
    automount: Option<Json>,
    annotations: Option<StringMap>)

  /** `spec.parameters`. */
  datatype Parameters = Parameters(
    deployment: DeploymentConfig,
    service: ServiceConfig,
    ingress: IngressConfig,
    serviceAccount: ServiceAccountConfig)

  /** The observed composite: `metadata.name` and `spec.parameters`. */
  datatype Composite = Composite(name: Option<string>, parameters: Parameters)

  const NoImage := ImageConfig(None, None, None)

  const NoDeployment := DeploymentConfig(
    None, NoImage, None, None, None, None, None, None, None, None, None, None, None, None)

  const NoService := ServiceConfig(None, None, {})

  const NoIngress := IngressConfig(None, None, None, None, {})

  const NoServiceAccount := ServiceAccountConfig(None, None, None, None)

  /** The parameters of a composite whose spec sets none (`spec.parameters || {}`). */
  const NoParameters := Parameters(NoDeployment, NoService, NoIngress, NoServiceAccount)
}

=== FILE: function.dfy ===
/**
  `RunFunction`: the name check, the four rules run in their fixed order
  (identity, network service, workload, ingress) over one canonical port, and
  the merge of the derived resources over the resources already desired.
 */
module Function {
  import opened Wrappers
  import opened Js
  import opened Config
  import opened Manifests
  import opened Rules

  const ServiceAccountKey := "serviceaccount"
  const ServiceKey := "service"
  const DeploymentKey := "deployment"
  const IngressKey := "ingress"

  /** The kind of manifest each derived key holds. */
  function KindAt(key: string): string {
    if key == ServiceAccountKey then "ServiceAccount"
    else if key == ServiceKey then "Service"
    else if key == DeploymentKey then "Deployment"
    else "Ingress"
  }

  /** What every derived entry is: one of the four kinds, the kind its key
      names, labelled with the common labels. */
  predicate Tagged(name: string, key: string, m: Manifest) {
    && !m.Composed?
    && m.Kind() == KindAt(key)
    && m.metadata.labels == CommonLabels(name)
  }

  /** The signal the response carries. A normal result says "processing complete". */
  datatype Status = Normal(message: string) | Fatal(failure: Error)

  /** The response: the desired composed resources and the status. */
  datatype Response = Response(desired: map<string, Manifest>, status: Status)

  /** The keys the derivation writes, read straight off the parameters. */
  function DerivedKeys(p: Parameters): set<string> {
    {DeploymentKey}
    + (if TruthyField(p.serviceAccount.create) then {ServiceAccountKey} else {})
    + (if p.service.HasKeys() then {ServiceKey} else {})
    + (if p.ingress.HasKeys() then {IngressKey} else {})
  }

  /** `desired[key] = manifest` when a rule produced one. */
  function Put(m: map<string, Manifest>, key: string, o: Option<Manifest>): (r: map<string, Manifest>)
    ensures r.Keys == m.Keys + (if o.Some? then {key} else {})
    ensures o.Some? ==> r[key] == o.value
    ensures forall k :: k in m && k != key ==> r[k] == m[k]
  {
    if o.Some? then m[key := o.value] else m
  }

  /** The resources one invocation derives, before the merge: the rules in
      their fixed order, or the failure the ingress rule throws. */
  function Derive(name: string, p: Parameters): (r: Result<map<string, Manifest>, Error>)
    ensures r.Success? <==> !IngressThrows(p.ingress)
    ensures r.Failure? ==> r.error == Unexpected
    ensures r.Success? ==> r.value.Keys == DerivedKeys(p)
  {
    var port := CanonicalPort(p.service);
    var m1 := Put(map[], ServiceAccountKey, ServiceAccountRule(name, p.serviceAccount));
    var m2 := Put(m1, ServiceKey, ServiceRule(name, p.service, port));
    var m3 := m2[DeploymentKey := DeploymentRule(name, p.deployment, p.serviceAccount, port)];
    match IngressRouteRule(name, p.ingress, port)
    case Failure(e) => Failure(e)
    case Success(ingress) => Success(Put(m3, IngressKey, ingress))
  }

  /** `setDesiredComposedResources`: the derived entries over the existing
      ones; a derived entry wins at its key, every other key is kept. */
  function Merge(existing: map<string, Manifest>, derived: map<string, Manifest>): (r: map<string, Manifest>)
    ensures r.Keys == existing.Keys + derived.Keys
    ensures forall k :: k in derived ==> r[k] == derived[k]
    ensures forall k :: k in existing && k !in derived ==> r[k] == existing[k]
  {
    existing + derived
  }

  /** One invocation: `desired` is what the request already desires. */
  function RunFunction(xr: Composite, desired: map<string, Manifest>): (r: Response)
    ensures !TruthyString(xr.name) ==> r.status == Fatal(NameRequired)
    ensures r.status.Normal? <==> TruthyString(xr.name) && !IngressThrows(xr.parameters.ingress)
    ensures TruthyString(xr.name) && IngressThrows(xr.parameters.ingress) ==> r.status == Fatal(Unexpected)
    ensures r.status.Normal? ==> r.status.message == "processing complete"
    ensures r.status.Fatal? ==> r.desired == desired
    ensures r.status.Normal? ==> r.desired.Keys == desired.Keys + DerivedKeys(xr.parameters)
    ensures r.status.Normal? ==>
              forall k :: k in desired && k !in DerivedKeys(xr.parameters) ==> r.desired[k] == desired[k]
    ensures r.status.Normal? ==>
              forall k :: k in DerivedKeys(xr.parameters) ==> r.desired[k] == Derive(xr.name.value, xr.parameters).value[k]
  {
    if !TruthyString(xr.name) then
      Response(desired, Fatal(NameRequired))
    else
      match Derive(xr.name.value, xr.parameters)
      case Failure(e) => Response(desired, Fatal(e))
      case Success(derived) => Response(Merge(desired, derived), Normal("processing complete"))
  }

  /** Every derived manifest has the kind its key names and carries the
      three common labels. */
  lemma DerivedManifestsTagged(name: string, p: Parameters)
    requires Derive(name, p).Success?
    ensures var d := Derive(name, p).value;
            forall k :: k in d ==> Tagged(name, k, d[k])
  {
    var d := Derive(name, p).value;
    var port := CanonicalPort(p.service);
    forall k | k in d
      ensures Tagged(name, k, d[k])
    {
      if k == ServiceAccountKey {
        assert d[k] == ServiceAccountRule(name, p.serviceAccount).value;
      } else if k == ServiceKey {
        assert d[k] == ServiceRule(name, p.service, port).value;
      } else if k == DeploymentKey {
        assert d[k] == DeploymentRule(name, p.deployment, p.serviceAccount, port);
      } else {
        assert d[k] == IngressRouteRule(name, p.ingress, port).value.value;
      }
    }
  }

  /** A composite with a name and no parameters yields one Deployment, at
      every default, and nothing else. */
  lemma NameOnlyYieldsDeployment(name: string)
    requires name != ""
    ensures var r := RunFunction(Composite(Some(name), NoParameters), map[]);
            && r.status.Normal?
            && r.desired.Keys == {DeploymentKey}
            && var d := r.desired[DeploymentKey];
            && d.Deployment?
            && d.ApiVersion() == "apps/v1"
            && d.Kind() == "Deployment"
            && d.replicas == 1
            && d.template.spec.serviceAccountName == None
            && |d.template.spec.containers| == 1
            && var c := d.template.spec.containers[0];
            && c.name == name
            && c.image == "nginx:latest"
            && c.imagePullPolicy == "IfNotPresent"
            && c.ports == [ContainerPort("http", 80, "TCP")]
  {
  }

  /** JavaScript's `||` treats 0 and "" as missing: falsy settings take the
      same defaults as absent ones. */
  lemma FalsySettingsTakeDefaults(name: string, p: Parameters)
    requires !TruthyNumber(p.deployment.replicaCount)
    requires !TruthyString(p.deployment.image.repository) && !TruthyString(p.deployment.image.tag)
    requires !TruthyString(p.deployment.image.pullPolicy)
    requires !TruthyNumber(p.service.port) && !TruthyString(p.service.serviceType)
    requires Derive(name, p).Success?
    ensures var d := Derive(name, p).value;
            && d[DeploymentKey].replicas == 1
            && d[DeploymentKey].template.spec.containers[0].image == "nginx:latest"
            && d[DeploymentKey].template.spec.containers[0].imagePullPolicy == "IfNotPresent"
            && d[DeploymentKey].template.spec.containers[0].ports == [ContainerPort("http", 80, "TCP")]
            && (ServiceKey in d ==> d[ServiceKey].serviceType == "ClusterIP" && d[ServiceKey].ports[0].port == 80)
  {
    var d := Derive(name, p).value;
    assert d[DeploymentKey] == DeploymentRule(name, p.deployment, p.serviceAccount, 80);
    if ServiceKey in d {
      assert d[ServiceKey] == ServiceRule(name, p.service, 80).value;
    }
  }

  /** Every port number in every derived manifest is the canonical port;
      the Deployment always and the Service whenever emitted carry it, so the
      container port follows `service.port` even without a Service. */
  lemma CanonicalPortShared(name: string, p: Parameters)
    requires Derive(name, p).Success?
    ensures var d := Derive(name, p).value;
            var port := CanonicalPort(p.service);
            && (forall k :: k in d ==> d[k].PortNumbers() <= {port})
            && d[DeploymentKey].PortNumbers() == {port}
            && (ServiceKey in d ==> d[ServiceKey].PortNumbers() == {port})
  {
    var d := Derive(name, p).value;
    var port := CanonicalPort(p.service);
    assert d[DeploymentKey] == DeploymentRule(name, p.deployment, p.serviceAccount, port);
    DeploymentPortNumbers(name, p.deployment, p.serviceAccount, port);
    if ServiceKey in d {
      assert d[ServiceKey] == ServiceRule(name, p.service, port).value;
      ServicePortNumbers(name, p.service, port);
    }
    if IngressKey in d {
      assert d[IngressKey] == IngressRouteRule(name, p.ingress, port).value.value;
      IngressPortNumbers(name, p.ingress, port);
    }
  }

  /** A concrete instance: `service.port` 9090 reaches the Service, the
      container and the ingress backends alike. */
  lemma Port9090Propagates(name: string, p: Parameters)
    requires p.service.port == Some(9090)
    requires Derive(name, p).Success?
    ensures var d := Derive(name, p).value;
            && d[ServiceKey].PortNumbers() == {9090}
            && d[DeploymentKey].PortNumbers() == {9090}
            && (IngressKey in d ==> d[IngressKey].PortNumbers() <= {9090})
  {
    CanonicalPortShared(name, p);
  }

  /** The pod names a ServiceAccount when `create === true` or a name is
      given, and then the same name the identity rule gives its
      ServiceAccount. */
  lemma ServiceAccountLinked(name: string, p: Parameters)
    requires Derive(name, p).Success?
    ensures var d := Derive(name, p).value;
            var podAccount := d[DeploymentKey].template.spec.serviceAccountName;
            && (podAccount.Some? <==> AttachesServiceAccount(p.serviceAccount))
            && (ServiceAccountKey in d && podAccount.Some? ==>
                  d[ServiceAccountKey].metadata.name == podAccount)
  {
  }

  /** `create` is tested for truthiness to emit the ServiceAccount but for
      strict `true` to reference it: a truthy non-boolean `create` without a
      name emits a ServiceAccount the pod does not use. */
  lemma TruthyCreateNotReferenced(name: string, p: Parameters)
    requires TruthyField(p.serviceAccount.create) && p.serviceAccount.create != Some(JBool(true))
    requires !TruthyString(p.serviceAccount.name)
    requires Derive(name, p).Success?
    ensures var d := Derive(name, p).value;
            && ServiceAccountKey in d
            && d[DeploymentKey].template.spec.serviceAccountName == None
  {
  }

  /** A name without `create` makes the pod reference a ServiceAccount this
      invocation does not emit. */
  lemma NameWithoutCreateReferencesMissingAccount(name: string, p: Parameters)
    requires !TruthyField(p.serviceAccount.create) && TruthyString(p.serviceAccount.name)
    requires Derive(name, p).Success?
    ensures var d := Derive(name, p).value;
            && ServiceAccountKey !in d
            && d[DeploymentKey].template.spec.serviceAccountName == p.serviceAccount.name
  {
  }

  /** TLS entries without hosts are dropped; when all are, the Ingress
      still carries a `tls` field, an empty one. */
  lemma AllTlsDroppedLeavesEmptyList(name: string, p: Parameters)
    requires p.ingress.tls.Some? && |p.ingress.tls.value| > 0
    requires forall i :: 0 <= i < |p.ingress.tls.value| ==> !HasHosts(p.ingress.tls.value[i])
    requires Derive(name, p).Success?
    ensures var d := Derive(name, p).value;
            IngressKey in d && d[IngressKey].tls == Some([])
  {
    var d := Derive(name, p).value;
    var port := CanonicalPort(p.service);
    assert d[IngressKey] == IngressRouteRule(name, p.ingress, port).value.value;
    KeptTlsAllDropped(p.ingress.tls.value);
  }

  /** Running again with the previous response's resources as the existing
      ones changes nothing: the merge is idempotent. */
  lemma RerunIsFixpoint(xr: Composite, desired: map<string, Manifest>)
    requires RunFunction(xr, desired).status.Normal?
    ensures RunFunction(xr, RunFunction(xr, desired).desired) == RunFunction(xr, desired)
  {
  }

  /** A later invocation overrides an earlier one at every key it derives;
      keys only the earlier one derived keep the earlier manifests. */
  lemma LaterRunWins(xr1: Composite, xr2: Composite, desired: map<string, Manifest>)
    requires RunFunction(xr1, desired).status.Normal?
    requires RunFunction(xr2, RunFunction(xr1, desired).desired).status.Normal?
    ensures var r1 := RunFunction(xr1, desired).desired;
            var r2 := RunFunction(xr2, r1).desired;
            && (forall k :: k in DerivedKeys(xr2.parameters) ==>
                  r2[k] == Derive(xr2.name.value, xr2.parameters).value[k])
            && (forall k :: k in r1 && k !in DerivedKeys(xr2.parameters) ==> r2[k] == r1[k])
            && r2[DeploymentKey].replicas == OrNumber(xr2.parameters.deployment.replicaCount, 1)
  {
  }
}

=== FILE: js.dfy ===
/**
  The JavaScript value semantics the derivation relies on: JSON values as they
  arrive in a composite's parameters, truthiness, and the `||`, `??` and
  `x && {...}` idioms the source uses to default and to include optional fields.
 */
module Js {
  import opened Wrappers

  /** A JSON value. Numbers are integers in this model. */
  datatype Json =
    | JNull
    | JBool(b: bool)
    | JNumber(n: int)
    | JString(s: string)
    | JArray(items: seq<Json>)
    | JObject(fields: map<string, Json>)

  /** A JSON object whose values are strings: labels and annotations. */
  type StringMap = map<string, string>

  /** JavaScript truthiness: null, false, 0 and "" are falsy; every array
      and object, even an empty one, is truthy. */
  predicate Truthy(v: Json) {
    match v
    case JNull => false
    case JBool(b) => b
    case JNumber(n) => n != 0
    case JString(s) => s != ""
    case JArray(_) => true
    case JObject(_) => true
  }

  /** Truthiness of a property read; an absent property reads as `undefined`. */
  predicate TruthyField(v: Option<Json>) {
    v.Some? && Truthy(v.value)
  }

  /** Truthiness of a string-typed property. */
  predicate TruthyString(v: Option<string>) {
    v.Some? && v.value != ""
  }

  /** Truthiness of a number-typed property. */
  predicate TruthyNumber(v: Option<int>) {
    v.Some? && v.value != 0
  }

  /** `v || d` on a string property: the value when it is truthy, else the default. */
  function OrString(v: Option<string>, d: string): (r: string)
    ensures TruthyString(v) ==> r == v.value
    ensures !TruthyString(v) ==> r == d
    ensures d != "" ==> r != ""
  {
    if TruthyString(v) then v.value else d
  }

  /** `v || d` on a number property. */
  function OrNumber(v: Option<int>, d: int): (r: int)
    ensures TruthyNumber(v) ==> r == v.value
    ensures !TruthyNumber(v) ==> r == d
    ensures d != 0 ==> r != 0
  {
    if TruthyNumber(v) then v.value else d
  }

  /** `v || {}` on an object property (an object is always truthy). */
  function OrEmpty(v: Option<StringMap>): StringMap {
    v.GetOr(map[])
  }

  /** `v ?? d`: the default only when the property is absent or null. Unlike
      `||`, a falsy value such as `false`, 0 or "" is kept. */
  function Nullish(v: Option<Json>, d: Json): (r: Json)
    ensures !d.JNull? ==> !r.JNull?
    ensures r == d || v == Some(r)
    ensures v.Some? && !v.value.JNull? ==> r == v.value
    ensures v.None? || v.value.JNull? ==> r == d
  {
    if v.None? || v.value.JNull? then d else v.value
  }

  /** `...(v && {field: v})`: the field appears only when `v` is truthy, and then verbatim. */
  function IfTruthy(v: Option<Json>): Option<Json> {
    if TruthyField(v) then v else None
  }

  /** What `...(v && {field: v})` promises of the optional field `out` it produced from `v`. */
  predicate CopiedIfTruthy(out: Option<Json>, v: Option<Json>) {
    && (out.Some? <==> TruthyField(v))
    && (out.Some? ==> out == v)
  }
}

=== FILE: manifests.dfy ===
/**
  The Kubernetes manifests the function composes, as plain records: only the
  fields the derivation sets. An optional field is an `Option`, so that "left
  out" and "present" cannot be confused.
 */
module Manifests {
  import opened Wrappers
  import opened Js

  datatype Metadata = Metadata(name: Option<string>, labels: StringMap, annotations: Option<StringMap>)

  /** An entry of a Service's `spec.ports`. */
  datatype ServicePort = ServicePort(name: string, port: int, targetPort: string, protocol: string)

  /** An entry of a container's `ports`. */
  datatype ContainerPort = ContainerPort(name: string, containerPort: int, protocol: string)

  datatype Container = Container(
    name: string,
    image: string,
    imagePullPolicy: string,
    ports: seq<ContainerPort>,
    securityContext: Option<Json>,
    resources: Option<Json>,
    livenessProbe: Option<Json>,
    readinessProbe: Option<Json>,
    volumeMounts: Option<Json>)

  datatype PodSpec = PodSpec(
    serviceAccountName: Option<string>,
    securityContext: Option<Json>,
    nodeSelector: Option<Json>,
    tolerations: Option<Json>,
    affinity: Option<Json>,
    volumes: Option<Json>,
    containers: seq<Container>)

  /** A Deployment's `spec.template`: pod metadata and pod spec. */
  datatype PodTemplate = PodTemplate(labels: StringMap, annotations: Option<StringMap>, spec: PodSpec)

  /** An entry of an ingress rule's `http.paths`, with its service backend. */
  datatype HttpPath = HttpPath(path: Option<string>, pathType: string, backendService: string, backendPort: int)

  /** An entry of an Ingress's `spec.rules`. */
  datatype IngressRule = IngressRule(host: Option<string>, paths: seq<HttpPath>)

  /** An entry of an Ingress's `spec.tls`. */
  datatype IngressTls = IngressTls(secretName: Option<string>, hosts: seq<string>)

  /** A composed resource. `Composed` is a resource that was already desired
      before this function ran, kept as an opaque document. */
  datatype Manifest =
    | ServiceAccount(metadata: Metadata, automountServiceAccountToken: Json)
    | Service(metadata: Metadata, serviceType: string, ports: seq<ServicePort>, selector: StringMap)
    | Deployment(metadata: Metadata, replicas: int, matchLabels: StringMap, template: PodTemplate)
    | Ingress(
        metadata: Metadata,
        ingressClassName: Option<string>,
        rules: Option<seq<IngressRule>>,
        tls: Option<seq<IngressTls>>)
    | Composed(document: Json)
  {
    function ApiVersion(): string
      requires !Composed?
    {
      match this
      case ServiceAccount(_, _) => "v1"
      case Service(_, _, _, _) => "v1"
      case Deployment(_, _, _, _) => "apps/v1"
      case Ingress(_, _, _, _) => "networking.k8s.io/v1"
    }

    function Kind(): string
      requires !Composed?
    {
      match this
      case ServiceAccount(_, _) => "ServiceAccount"
      case Service(_, _, _, _) => "Service"
      case Deployment(_, _, _, _) => "Deployment"
      case Ingress(_, _, _, _) => "Ingress"
    }

    /** Every port number the manifest refers to: service ports, container
        ports, ingress backend ports. */
    function PortNumbers(): set<int> {
      match this
      case ServiceAccount(_, _) => {}
      case Service(_, _, ports, _) => set p | p in ports :: p.port
      case Deployment(_, _, _, t) =>
        set c, p | c in t.spec.containers && p in c.ports :: p.containerPort
      case Ingress(_, _, rules, _) =>
        if rules.None? then {}
        else set r, h | r in rules.value && h in r.paths :: h.backendPort
      case Composed(_) => {}
    }
  }
}

=== FILE: rules.dfy ===
/**
  The four resource-construction rules of `RunFunction` — identity
  (ServiceAccount), network service (Service), workload (Deployment) and
  ingress route (Ingress) — and the metadata and port they share.
  Each rule is a pure function; the data one rule takes from another (the
  canonical port, the service-account settings) is an explicit parameter.
 */
module Rules {
  import opened Wrappers
  import opened Js
  import opened Config
  import opened Manifests

  /** Why an invocation fails. `NameRequired` is the explicit check on the
      composite's name ("Composite resource name is required");
      `Unexpected` is an exception thrown while building a manifest and
      caught at the top of the function. */
  datatype Error = NameRequired | Unexpected

  const NameLabel := "app.kubernetes.io/name"
  const InstanceLabel := "app.kubernetes.io/instance"
  const ManagedByLabel := "app.kubernetes.io/managed-by"

  /** The labels every composed resource carries. */
  function CommonLabels(name: string): StringMap {
    map[NameLabel := name, InstanceLabel := name, ManagedByLabel := "crossplane"]
  }

  /** The labels that select the workload's pods. */
  function SelectorLabels(name: string): StringMap {
    map[NameLabel := name, InstanceLabel := name]
  }

  /** Every entry of `a` is in `b` with the same value. */
  predicate SubMap(a: StringMap, b: StringMap) {
    forall k :: k in a ==> k in b && b[k] == a[k]
  }

  /** The selector labels are exactly the common labels without the
      managed-by label. */
  lemma SelectorWithinCommonLabels(name: string)
    ensures SubMap(SelectorLabels(name), CommonLabels(name))
    ensures CommonLabels(name).Keys - SelectorLabels(name).Keys == {ManagedByLabel}
  {
  }

  /** The one port shared by the Service, the container and every ingress
      backend: `service.port || 80`. */
  function CanonicalPort(svc: ServiceConfig): (port: int)
    ensures port != 0
    ensures TruthyNumber(svc.port) ==> port == svc.port.value
    ensures !TruthyNumber(svc.port) ==> port == 80
  {
    OrNumber(svc.port, 80)
  }

  /** The name of the ServiceAccount, created or referenced: `serviceAccount.name || name`. */
  function ServiceAccountName(name: string, sa: ServiceAccountConfig): string {
    OrString(sa.name, name)
  }

  /** Whether the pod spec names a ServiceAccount: `create === true`, a
      strict boolean test, or a non-empty `name`. */
  predicate AttachesServiceAccount(sa: ServiceAccountConfig) {
    sa.create == Some(JBool(true)) || TruthyString(sa.name)
  }

  /** The identity rule: a ServiceAccount exactly when `create` is truthy. */
  function ServiceAccountRule(name: string, sa: ServiceAccountConfig): (r: Option<Manifest>)
    ensures r.Some? <==> TruthyField(sa.create)
    ensures r.Some? ==> r.value.ServiceAccount?
    ensures r.Some? ==> r.value.metadata.name == Some(ServiceAccountName(name, sa))
    ensures r.Some? ==> r.value.metadata.labels == CommonLabels(name)
    ensures r.Some? ==> r.value.metadata.annotations == Some(OrEmpty(sa.annotations))
    ensures r.Some? && (sa.automount.None? || sa.automount.value.JNull?) ==>
              r.value.automountServiceAccountToken == JBool(true)
    ensures r.Some? && sa.automount.Some? && !sa.automount.value.JNull? ==>
              r.value.automountServiceAccountToken == sa.automount.value
  {
    if TruthyField(sa.create) then
      Some(ServiceAccount(
        Metadata(Some(ServiceAccountName(name, sa)), CommonLabels(name), Some(OrEmpty(sa.annotations))),
        Nullish(sa.automount, JBool(true))))
    else
      None
  }

  /** The network-service rule: a Service exactly when the `service` block has a key. */
  function ServiceRule(name: string, svc: ServiceConfig, port: int): (r: Option<Manifest>)
    ensures r.Some? <==> svc.HasKeys()
    ensures r.Some? ==> r.value.Service?
    ensures r.Some? ==> r.value.metadata == Metadata(None, CommonLabels(name), None)
    ensures r.Some? ==> r.value.selector == SelectorLabels(name)
    ensures r.Some? ==> r.value.serviceType != ""
    ensures r.Some? && TruthyString(svc.serviceType) ==> r.value.serviceType == svc.serviceType.value
    ensures r.Some? && !TruthyString(svc.serviceType) ==> r.value.serviceType == "ClusterIP"
    ensures r.Some? ==> r.value.ports == [ServicePort("http", port, "http", "TCP")]
  {
    if svc.HasKeys() then
      Some(Service(
        Metadata(None, CommonLabels(name), None),
        OrString(svc.serviceType, "ClusterIP"),
        [ServicePort("http", port, "http", "TCP")],
        SelectorLabels(name)))
    else
      None
  }

  /** The container image reference `repository:tag`, each part defaulted. */
  function ImageRef(image: ImageConfig): string {
    OrString(image.repository, "nginx") + ":" + OrString(image.tag, "latest")
  }

  /** The position of the last ':' in `s`, if any. */
  function LastColon(s: string): (r: Option<nat>)
    ensures r.Some? ==> r.value < |s| && s[r.value] == ':'
    ensures r.Some? ==> forall j :: r.value < j < |s| ==> s[j] != ':'
    ensures r.None? ==> ':' !in s
    decreases |s|
  {
    if |s| == 0 then None
    else if s[|s| - 1] == ':' then Some(|s| - 1)
    else LastColon(s[..|s| - 1])
  }

  /** An image reference is recoverable: split at its last ':', it gives
      back the repository and the tag it was built from, whenever the tag
      holds no ':' (a registry port may sit in the repository part). */
  lemma ImageRefRoundTrip(image: ImageConfig)
    requires ':' !in OrString(image.tag, "latest")
    ensures var ref := ImageRef(image);
            var i := LastColon(ref);
            && i.Some?
            && ref[..i.value] == OrString(image.repository, "nginx")
            && ref[i.value + 1..] == OrString(image.tag, "latest")
  {
    var repo := OrString(image.repository, "nginx");
    var tag := OrString(image.tag, "latest");
    var ref := ImageRef(image);
    assert ref[|repo|] == ':';
    assert ref[..|repo|] == repo;
    assert ref[|repo| + 1..] == tag;
  }

  /** The pod template's labels keep the selector's values when `podLabels`
      does not redefine the name or instance label to something else. */
  predicate PodLabelsKeepSelector(name: string, dep: DeploymentConfig) {
    var extra := OrEmpty(dep.podLabels);
    && (NameLabel in extra ==> extra[NameLabel] == name)
    && (InstanceLabel in extra ==> extra[InstanceLabel] == name)
  }

  /** The only container of the workload. */
  function MainContainer(name: string, dep: DeploymentConfig, port: int): Container {
    Container(
      name,
      ImageRef(dep.image),
      OrString(dep.image.pullPolicy, "IfNotPresent"),
      [ContainerPort("http", port, "TCP")],
      IfTruthy(dep.securityContext),
      IfTruthy(dep.resources),
      IfTruthy(dep.livenessProbe),
      IfTruthy(dep.readinessProbe),
      IfTruthy(dep.volumeMounts))
  }

  /** The workload rule: always exactly one Deployment. */
  function DeploymentRule(name: string, dep: DeploymentConfig, sa: ServiceAccountConfig, port: int): (r: Manifest)
    ensures r.Deployment?
    ensures r.metadata == Metadata(None, CommonLabels(name), Some(OrEmpty(dep.podAnnotations)))
    ensures r.replicas != 0
    ensures TruthyNumber(dep.replicaCount) ==> r.replicas == dep.replicaCount.value
    ensures !TruthyNumber(dep.replicaCount) ==> r.replicas == 1
    ensures r.matchLabels == SelectorLabels(name)
    ensures forall k :: k in r.template.labels <==> k in SelectorLabels(name) || k in OrEmpty(dep.podLabels)
    ensures forall k :: k in OrEmpty(dep.podLabels) ==> r.template.labels[k] == OrEmpty(dep.podLabels)[k]
    ensures forall k :: k in SelectorLabels(name) && k !in OrEmpty(dep.podLabels) ==> r.template.labels[k] == name
    ensures r.template.annotations == dep.podAnnotations
    ensures r.template.spec.serviceAccountName.Some? <==> AttachesServiceAccount(sa)
    ensures r.template.spec.serviceAccountName.Some? ==>
              r.template.spec.serviceAccountName.value == ServiceAccountName(name, sa)
    ensures CopiedIfTruthy(r.template.spec.securityContext, dep.podSecurityContext)
    ensures CopiedIfTruthy(r.template.spec.nodeSelector, dep.nodeSelector)
    ensures CopiedIfTruthy(r.template.spec.tolerations, dep.tolerations)
    ensures CopiedIfTruthy(r.template.spec.affinity, dep.affinity)
    ensures CopiedIfTruthy(r.template.spec.volumes, dep.volumes)
    ensures |r.template.spec.containers| == 1
    ensures var c := r.template.spec.containers[0];
            && c.name == name
            && c.image == ImageRef(dep.image)
            && c.imagePullPolicy != ""
            && (TruthyString(dep.image.pullPolicy) ==> c.imagePullPolicy == dep.image.pullPolicy.value)
            && (!TruthyString(dep.image.pullPolicy) ==> c.imagePullPolicy == "IfNotPresent")
            && c.ports == [ContainerPort("http", port, "TCP")]
            && CopiedIfTruthy(c.securityContext, dep.securityContext)
            && CopiedIfTruthy(c.resources, dep.resources)
            && CopiedIfTruthy(c.livenessProbe, dep.livenessProbe)
            && CopiedIfTruthy(c.readinessProbe, dep.readinessProbe)
            && CopiedIfTruthy(c.volumeMounts, dep.volumeMounts)
  {
    Deployment(
      Metadata(None, CommonLabels(name), Some(OrEmpty(dep.podAnnotations))),
      OrNumber(dep.replicaCount, 1),
      SelectorLabels(name),
      PodTemplate(
        SelectorLabels(name) + OrEmpty(dep.podLabels),
        dep.podAnnotations,
        PodSpec(
          if AttachesServiceAccount(sa) then Some(ServiceAccountName(name, sa)) else None,
          IfTruthy(dep.podSecurityContext),
          IfTruthy(dep.nodeSelector),
          IfTruthy(dep.tolerations),
          IfTruthy(dep.affinity),
          IfTruthy(dep.volumes),
          [MainContainer(name, dep, port)])))
  }

  /** The pod template matches the Deployment's selector exactly when
      `podLabels` leaves the name and instance labels alone. */
  lemma TemplateMatchesSelector(name: string, dep: DeploymentConfig, sa: ServiceAccountConfig, port: int)
    ensures var d := DeploymentRule(name, dep, sa, port);
            SubMap(d.matchLabels, d.template.labels) <==> PodLabelsKeepSelector(name, dep)
  {
  }

  /** The Service exposes exactly the port it is given. */
  lemma ServicePortNumbers(name: string, svc: ServiceConfig, port: int)
    requires svc.HasKeys()
    ensures ServiceRule(name, svc, port).value.PortNumbers() == {port}
  {
    var m := ServiceRule(name, svc, port).value;
    assert ServicePort("http", port, "http", "TCP") in m.ports;
  }

  /** The Deployment's container listens on exactly the port it is given. */
  lemma DeploymentPortNumbers(name: string, dep: DeploymentConfig, sa: ServiceAccountConfig, port: int)
    ensures DeploymentRule(name, dep, sa, port).PortNumbers() == {port}
  {
    var m := DeploymentRule(name, dep, sa, port);
    var c := m.template.spec.containers[0];
    assert c in m.template.spec.containers && ContainerPort("http", port, "TCP") in c.ports;
  }

  /** `ingress.tls[i]` keeps a TLS entry only when it names at least one host. */
  predicate HasHosts(e: IngressTlsConfig) {
    e.hosts.Some? && |e.hosts.value| > 0
  }

  /** The callback of `tls.map(...)`: the entry verbatim, or null when it has no hosts. */
  function TlsEntry(e: IngressTlsConfig): (r: Option<IngressTls>)
    ensures r.Some? <==> HasHosts(e)
    ensures r.Some? ==> r.value.secretName == e.secretName && Some(r.value.hosts) == e.hosts
  {
    if HasHosts(e) then Some(IngressTls(e.secretName, e.hosts.value)) else None
  }

  /** `tls.map(...)`. */
  function TlsEntries(tls: seq<IngressTlsConfig>): seq<Option<IngressTls>> {
    seq(|tls|, i requires 0 <= i < |tls| => TlsEntry(tls[i]))
  }

  /** `.filter(entry => entry !== null)`: the present values, in order. */
  function Present<T(!new)>(s: seq<Option<T>>): (r: seq<T>)
    ensures |r| <= |s|
    ensures forall x :: x in r <==> Some(x) in s
    decreases |s|
  {
    if |s| == 0 then []
    else
      assert s == [s[0]] + s[1..];
      (if s[0].Some? then [s[0].value] else []) + Present(s[1..])
  }

  lemma {:induction false} PresentAppend<T(!new)>(a: seq<Option<T>>, b: seq<Option<T>>)
    ensures Present(a + b) == Present(a) + Present(b)
    decreases |a|
  {
    if |a| == 0 {
      assert a + b == b;
    } else {
      assert (a + b)[1..] == a[1..] + b;
      PresentAppend(a[1..], b);
    }
  }

  /** The TLS entries an Ingress carries: those with hosts, unchanged. */
  function KeptTls(tls: seq<IngressTlsConfig>): (r: seq<IngressTls>)
    ensures |r| <= |tls|
    ensures forall t :: t in r ==> |t.hosts| > 0
    ensures forall i :: 0 <= i < |tls| && HasHosts(tls[i]) ==> IngressTls(tls[i].secretName, tls[i].hosts.value) in r
    ensures forall t :: t in r ==> exists i :: 0 <= i < |tls| && TlsEntry(tls[i]) == Some(t)
  {
    var entries := TlsEntries(tls);
    var r := Present(entries);
    assert forall i :: 0 <= i < |tls| && HasHosts(tls[i]) ==> Some(IngressTls(tls[i].secretName, tls[i].hosts.value)) == entries[i];
    r
  }

  /** Filtering distributes over concatenation, so kept entries stay in
      their declared order. */
  lemma {:induction false} KeptTlsAppend(a: seq<IngressTlsConfig>, b: seq<IngressTlsConfig>)
    ensures KeptTls(a + b) == KeptTls(a) + KeptTls(b)
  {
    assert TlsEntries(a + b) == TlsEntries(a) + TlsEntries(b);
    PresentAppend(TlsEntries(a), TlsEntries(b));
  }

  /** A single entry survives exactly when it has hosts. */
  lemma KeptTlsSingle(e: IngressTlsConfig)
    ensures HasHosts(e) ==> KeptTls([e]) == [IngressTls(e.secretName, e.hosts.value)]
    ensures !HasHosts(e) ==> KeptTls([e]) == []
  {
  }

  /** When every entry has hosts, nothing is dropped and nothing is reordered. */
  lemma {:induction false} KeptTlsAllValid(tls: seq<IngressTlsConfig>)
    requires forall i :: 0 <= i < |tls| ==> HasHosts(tls[i])
    ensures |KeptTls(tls)| == |tls|
    ensures forall i :: 0 <= i < |tls| ==> KeptTls(tls)[i] == IngressTls(tls[i].secretName, tls[i].hosts.value)
    decreases |tls|
  {
    if |tls| > 0 {
      var rest := tls[1..];
      assert tls == [tls[0]] + rest;
      KeptTlsAppend([tls[0]], rest);
      KeptTlsSingle(tls[0]);
      KeptTlsAllValid(rest);
      var kept := KeptTls(tls);
      assert kept == [IngressTls(tls[0].secretName, tls[0].hosts.value)] + KeptTls(rest);
      forall i | 0 <= i < |tls|
        ensures kept[i] == IngressTls(tls[i].secretName, tls[i].hosts.value)
      {
        if i > 0 {
          assert kept[i] == KeptTls(rest)[i - 1];
          assert tls[i] == rest[i - 1];
        }
      }
    }
  }

  /** When no entry has hosts, the result is empty — still a list. */
  lemma {:induction false} KeptTlsAllDropped(tls: seq<IngressTlsConfig>)
    requires forall i :: 0 <= i < |tls| ==> !HasHosts(tls[i])
    ensures KeptTls(tls) == []
    decreases |tls|
  {
    if |tls| > 0 {
      assert tls == [tls[0]] + tls[1..];
      KeptTlsAppend([tls[0]], tls[1..]);
      KeptTlsSingle(tls[0]);
      KeptTlsAllDropped(tls[1..]);
    }
  }

  /** The `tls` field of the Ingress: present only when the configured list is non-empty. */
  function TlsField(tls: Option<seq<IngressTlsConfig>>): Option<seq<IngressTls>> {
    if tls.Some? && |tls.value| > 0 then Some(KeptTls(tls.value)) else None
  }

  /** `out` routes the configured paths of one host, in order, to the
      composite's service on `port`. */
  predicate RoutesPaths(out: seq<HttpPath>, paths: seq<IngressPathConfig>, name: string, port: int) {
    && |out| == |paths|
    && forall j :: 0 <= j < |paths| ==>
         out[j] == HttpPath(paths[j].path, OrString(paths[j].pathType, "ImplementationSpecific"), name, port)
  }

  /** One ingress rule per configured host, in order. */
  predicate RoutesHosts(rules: seq<IngressRule>, hosts: seq<IngressHostConfig>, name: string, port: int) {
    && |rules| == |hosts|
    && forall i :: 0 <= i < |hosts| ==>
         && rules[i].host == hosts[i].host
         && hosts[i].paths.Some?
         && RoutesPaths(rules[i].paths, hosts[i].paths.value, name, port)
  }

  /** `hostConfig.paths.map(...)`. */
  function HttpPaths(name: string, paths: seq<IngressPathConfig>, port: int): (r: seq<HttpPath>)
    ensures RoutesPaths(r, paths, name, port)
    ensures |r| == |paths|
    ensures forall j :: 0 <= j < |paths| ==> r[j].path == paths[j].path
    ensures forall h :: h in r ==> h.backendService == name && h.backendPort == port && h.pathType != ""
    ensures forall j :: 0 <= j < |paths| && TruthyString(paths[j].pathType) ==> r[j].pathType == paths[j].pathType.value
    ensures forall j :: 0 <= j < |paths| && !TruthyString(paths[j].pathType) ==> r[j].pathType == "ImplementationSpecific"
  {
    seq(|paths|, j requires 0 <= j < |paths| =>
      HttpPath(paths[j].path, OrString(paths[j].pathType, "ImplementationSpecific"), name, port))
  }

  /** A host entry without `paths` makes `hostConfig.paths.map` throw. */
  predicate HostWithoutPaths(hosts: seq<IngressHostConfig>) {
    exists i :: 0 <= i < |hosts| && hosts[i].paths.None?
  }

  /** `ingress.hosts.map(...)`: the rules, or the exception a host without paths raises. */
  function HttpRules(name: string, hosts: seq<IngressHostConfig>, port: int): (r: Result<seq<IngressRule>, Error>)
    ensures r.Success? <==> !HostWithoutPaths(hosts)
    ensures r.Failure? ==> r.error == Unexpected
    ensures r.Success? ==> RoutesHosts(r.value, hosts, name, port)
    decreases |hosts|
  {
    if |hosts| == 0 then Success([])
    else if hosts[0].paths.None? then Failure(Unexpected)
    else
      match HttpRules(name, hosts[1..], port)
      case Failure(e) => Failure(e)
      case Success(rest) =>
        Success([IngressRule(hosts[0].host, HttpPaths(name, hosts[0].paths.value, port))] + rest)
  }

  /** Whether building the Ingress throws. */
  predicate IngressThrows(ing: IngressConfig) {
    ing.HasKeys() && ing.hosts.Some? && HostWithoutPaths(ing.hosts.value)
  }

  /** The ingress rule: an Ingress exactly when the `ingress` block has a key. */
  function IngressRouteRule(name: string, ing: IngressConfig, port: int): (r: Result<Option<Manifest>, Error>)
    ensures r.Failure? <==> IngressThrows(ing)
    ensures r.Failure? ==> r.error == Unexpected
    ensures r.Success? ==> (r.value.Some? <==> ing.HasKeys())
    ensures r.Success? && r.value.Some? ==>
              var m := r.value.value;
              && m.Ingress?
              && m.metadata == Metadata(None, CommonLabels(name), Some(OrEmpty(ing.annotations)))
              && (m.ingressClassName.Some? <==> TruthyString(ing.className))
              && (m.ingressClassName.Some? ==> m.ingressClassName == ing.className)
              && (m.rules.Some? <==> ing.hosts.Some?)
              && (m.rules.Some? ==> RoutesHosts(m.rules.value, ing.hosts.value, name, port))
              && (m.tls.Some? <==> ing.tls.Some? && |ing.tls.value| > 0)
              && (m.tls.Some? ==> m.tls.value == KeptTls(ing.tls.value))
  {
    if !ing.HasKeys() then Success(None)
    else
      var rules: Result<Option<seq<IngressRule>>, Error> :=
        if ing.hosts.None? then Success(None)
        else match HttpRules(name, ing.hosts.value, port)
             case Failure(e) => Failure(e)
             case Success(rs) => Success(Some(rs));
      match rules
      case Failure(e) => Failure(e)
      case Success(rs) =>
        Success(Some(Ingress(
          Metadata(None, CommonLabels(name), Some(OrEmpty(ing.annotations))),
          if TruthyString(ing.className) then ing.className else None,
          rs,
          TlsField(ing.tls))))
  }

  /** Every ingress backend points at the port it is given. */
  lemma IngressPortNumbers(name: string, ing: IngressConfig, port: int)
    requires IngressRouteRule(name, ing, port).Success?
    requires IngressRouteRule(name, ing, port).value.Some?
    ensures IngressRouteRule(name, ing, port).value.value.PortNumbers() <= {port}
  {
    var m := IngressRouteRule(name, ing, port).value.value;
    if m.rules.Some? {
      var rules := m.rules.value;
      forall r, h | r in rules && h in r.paths
        ensures h.backendPort == port
      {
        var i :| 0 <= i < |rules| && rules[i] == r;
        var j :| 0 <= j < |r.paths| && r.paths[j] == h;
      }
    }
  }
}

=== FILE: wrappers.dfy ===
/** Option and Result, the two failure-carrying shapes the model needs. */
module Wrappers {

  /** A value that may be absent: an unset property, or a rule that emits nothing. */
  datatype Option<+T> = None | Some(value: T) {

    /** The value, or `default` when there is none. */
    function GetOr(default: T): T {
      match this
      case Some(v) => v
      case None => default
    }
  }

  /** The outcome of a computation that can fail with an error of type E. */
  datatype Result<+R, +E> = Success(value: R) | Failure(error: E)
}
